=== FILE: README.md ===
# Better Allowlist — a Dafny model

A TShock (Terraria server) plugin that gates player joins against a persisted
allowlist, in its two variants:

- **BetterAllowlist** keeps *pattern entries*. Each has three optional fields,
  `ip`, `name` and `uuid`. An unset field is a wildcard. A set field must equal
  the player's attribute exactly. Entries are added by a live lookup of
  connected players. An `allowlist remove` drops every entry that matches a key.
- **BetterWhitelist** keeps *typed entries* `(type ∈ {IP, Name, UUID}, value)`.
  An entry tests one attribute. Entries match each other only when equal.

The model is functional. Each plugin's mutable state becomes a value
`Plugin(config, disk)`: the configuration in memory and the state of the
configuration file. Each command handler returns the next `Plugin`, a reply
tag and whether the file was written. The join handler returns a verdict:
`Admit` or `Disconnect(reason)`. Host services are passed in as inputs:

- the player table (`TShock.Players`) is a sequence of slots,
  `seq<Option<Player>>`, where `None` is an empty slot;
- the permission check is a function `Permission -> bool`;
- the file is one of four read outcomes: `Absent`, `Unparsable`,
  `NullDocument` or `Holds(config)`.

Modules:

| module | file | models |
|---|---|---|
| `Lists` | lists.dfy | `Enumerable.Any`, `List.RemoveAll` (as `Keep` plus `Count`), `String.Join` |
| `Host` | host.dfy | players, the bypass permissions, join verdicts |
| `Storage` | storage.dfy | the configuration file as a read outcome |
| `AllowListEntries` | allowlist_entry.dfy | BetterAllowlist/AllowListEntry.cs |
| `AllowListConfigs` | allowlist_config.dfy | BetterAllowlist/AllowListConfig.cs |
| `Allowlist` | allowlist_plugin.dfy | BetterAllowlist/BetterAllowlist.cs |
| `Whitelist` | whitelist_plugin.dfy | BetterWhitelist/BetterWhitelist.cs |
| `Variants` | variants.dfy | a typed entry read as a pattern entry |

Points where the source does not compile or is ambiguous, and the reading chosen:

- `RemoveEntry` passes a `string` to `RemoveAllMatches`, which takes an entry
  (BetterAllowlist/BetterAllowlist.cs:181). The model uses the key the
  `(type, value)` constructor builds for type `"name"`: `{name: value}`.
  Because the stored entry is the pattern, `remove v` drops exactly the
  entries with no IP, no UUID, and a name that is unset or `v`. So an entry
  pinned by IP or UUID can never be removed by command, and an all-null
  entry is removed by any `remove`. `Allowlist.RemovalKeyScope` proves this.
- With exactly two tokens and an action other than `remove`, `ManageEntry`
  reads `args[2]`, which is out of range (BetterAllowlist/BetterAllowlist.cs:165).
  The command host catches the exception. The model gives the reply
  `CommandFailed`, with no change and no write. The exception comes before the
  type check, so the type is never validated.
- The constructor's lookup loops read `player.Name` on every slot they visit
  without a null check (BetterAllowlist/AllowListEntry.cs:31-63). A lookup
  that reaches an empty slot before a player with the name throws. The
  command host catches this as well, so the model gives `CommandFailed` with
  no change and no write.
- The `AllowListEntryType` enum gives its members string values, which C#
  does not allow (BetterWhitelist/BetterWhitelist.cs:237-242). The model uses a
  three-constructor datatype. Interpolating an enum prints its member name, so
  the listing renders kinds as `IP`, `Name` and `UUID`.

Behaviours of the code worth knowing, each proved in the model:

- At startup BetterWhitelist overwrites a configuration file that fails to
  parse: `LoadConfig` returns false from its `catch`
  (BetterWhitelist/BetterWhitelist.cs:113-118), and `Initialize` then writes
  the defaults (BetterWhitelist/BetterWhitelist.cs:45-49). BetterAllowlist
  keeps such a file, because `Load` returns true for it
  (BetterAllowlist/BetterAllowlist.cs:69-72). See `Whitelist.Initialize`,
  `Allowlist.Initialize` and "## Findings".
- An `add` by ip, uuid or all whose lookup passes every slot without
  finding the name stores the all-null entry, which admits everyone
  (BetterAllowlist/AllowListEntry.cs:23-71). This needs every slot to hold a
  player, because an empty slot met first makes the command fail. See
  `AllowListEntries.LookupMissAdmitsEveryone`,
  `Allowlist.AddForAbsentPlayerOpensTheGate` and
  `Allowlist.AddWithEmptySlotFails`.
- BetterWhitelist's listing of an empty allowlist is the empty message `""`
  (BetterWhitelist/BetterWhitelist.cs:129-137). BetterAllowlist reports that
  there are no entries instead.

## Model

| member | source | states |
|---|---|---|
| `Lists.Any` | BetterAllowlist/BetterAllowlist.cs:222 | Enumerable.Any; its meaning is stated by `Lists.CountZeroIffNone` and `Host.HasBypassIffAnyPermission` |
| `Lists.Count` | BetterAllowlist/AllowListConfig.cs:22 | the number RemoveAll returns; its meaning is stated by `Lists.CountZeroIffNone`, `Lists.CountAppend` and `Lists.Keep` |
| `Lists.CountZeroIffNone` | BetterAllowlist/AllowListConfig.cs:22-25 | RemoveAll returns 0 iff no element satisfies the predicate (Any is false) |
| `Lists.CountAppend` | BetterAllowlist/AllowListConfig.cs:22 | the count over a concatenation is the sum of the counts |
| `Lists.Keep` | BetterAllowlist/AllowListConfig.cs:22 | RemoveAll keeps exactly the elements the predicate rejects, each from the input; the number dropped is the number of matching elements; same length means nothing changed |
| `Lists.KeepMultiplicity` | BetterAllowlist/AllowListConfig.cs:22 | each value the predicate rejects survives as many times as it occurs; a value it accepts does not survive |
| `Lists.KeepAppend` | BetterAllowlist/AllowListConfig.cs:22 | removal distributes over concatenation, so relative order is preserved |
| `Lists.KeepIdempotent` | BetterAllowlist/AllowListConfig.cs:22 | a second RemoveAll with the same predicate changes nothing |
| `Lists.Map` | BetterAllowlist/AllowListConfig.cs:33 | Enumerable.Select keeps the length and puts `f` of the i-th element at position i |
| `Lists.KeepMap` | BetterWhitelist/BetterWhitelist.cs:178 | removing then mapping equals mapping then removing with a predicate that agrees through the map |
| `Lists.Join` | BetterAllowlist/AllowListConfig.cs:33 | String.Join of no parts is empty, of one part is that part, and starts with the first part |
| `Lists.JoinAppend` | BetterAllowlist/AllowListConfig.cs:33 | joining two non-empty part lists puts exactly one separator between them |
| `Host.HasBypass` | BetterAllowlist/BetterAllowlist.cs:216 | `bypassPermissions.Any(perm => player.HasPermission(perm))`; its meaning is stated by `Host.HasBypassIffAnyPermission` |
| `Host.HasBypassIffAnyPermission` | BetterAllowlist/BetterAllowlist.cs:47-53 | the bypass test holds iff the player has whitelist, ban, kick or immune-to-kick |
| `AllowListEntries.MatchesPlayer` | BetterAllowlist/AllowListEntry.cs:73-80 | Matches(TSPlayer); its meaning is stated by `MatchesPlayerIffConstraintsHold`, `DisagreeingFieldRejects` and `WildcardMatchesEverything` |
| `AllowListEntries.MatchesEntry` | BetterAllowlist/AllowListEntry.cs:82-89 | Matches(AllowListEntry) with the receiver as pattern; its meaning is stated by `MatchesEntryIffConstraintsIncluded`, `MatchesEntryIsPreorder` and `MatchesEntryIsNotSymmetric` |
| `AllowListEntries.MatchesPlayerIffConstraintsHold` | BetterAllowlist/AllowListEntry.cs:73-80 | an entry admits a player iff every set field equals the player's attribute, i.e. the entry's facts are a subset of the player's |
| `AllowListEntries.MatchesEntryIffConstraintsIncluded` | BetterAllowlist/AllowListEntry.cs:82-89 | entry-to-entry matching is inclusion of the receiver's set fields in the other entry's |
| `AllowListEntries.MatchesPlayerIsMatchesEntry` | BetterAllowlist/AllowListEntry.cs:73-89 | matching a player equals matching the entry holding all of that player's attributes |
| `AllowListEntries.DisagreeingFieldRejects` | BetterAllowlist/AllowListEntry.cs:76-78 | one set field that differs from the player rejects the player, whatever the other fields are |
| `AllowListEntries.WildcardMatchesEverything` | BetterAllowlist/AllowListEntry.cs:73-89 | the all-null entry matches every player and every entry |
| `AllowListEntries.MatchesEntryIsPreorder` | BetterAllowlist/AllowListEntry.cs:82-89 | entry matching is reflexive and transitive |
| `AllowListEntries.MatchesEntryIsNotSymmetric` | BetterAllowlist/AllowListEntry.cs:82-89 | `{name:A}` matches `{ip:X, name:A}` but not the reverse |
| `AllowListEntries.MatchesPlayerThroughEntry` | BetterAllowlist/AllowListEntry.cs:73-89 | a pattern matching an entry admits every player that entry admits |
| `AllowListEntries.FirstNamed` | BetterAllowlist/AllowListEntry.cs:31-38 | a found player is in a slot and has that name; the lookup finds nothing iff every slot holds a player with another name |
| `AllowListEntries.FirstNamedStopsAtFirstOtherSlot` | BetterAllowlist/AllowListEntry.cs:31-38 | after slots holding players with other names, the lookup stops at the next slot: an empty one throws, a player with the name is found |
| `AllowListEntries.FromCommand` | BetterAllowlist/AllowListEntry.cs:23-71 | "name" gives `{name:value}` without a lookup; unknown types and missed lookups give the all-null entry; a lookup type throws iff its lookup meets an empty slot; a set name is the value; a set ip or uuid is that of a connected player named value |
| `AllowListEntries.LookupMissAdmitsEveryone` | BetterAllowlist/AllowListEntry.cs:23-71 | for any type but "name", when every slot holds a player with another name, the entry built matches every player and every entry |
| `AllowListEntries.EmptySlotBeforeMatchFails` | BetterAllowlist/AllowListEntry.cs:31-63 | for ip, uuid and all, an empty slot before any player with the name makes the constructor throw |
| `AllowListEntries.ResolvedFromEarliestPlayer` | BetterAllowlist/AllowListEntry.cs:53-63 | when the first slot that is not a player with another name holds a player with the name, ip, uuid and all copy that player's fields; "all" has name == value plus that player's ip and uuid |
| `AllowListEntries.Text` | BetterAllowlist/AllowListEntry.cs:93 | how interpolation prints a nullable field; `AllowListEntries.RenderNullAsEmpty` states that null prints as empty text |
| `AllowListEntries.Render` | BetterAllowlist/AllowListEntry.cs:91-94 | ToString starts with `AllowListEntry(ip=` and ends with `)`; the ip text follows `ip=`, then `, name=` and the name text, then `, uuid=` and the uuid text; 33 characters plus the field texts |
| `AllowListEntries.RenderNullAsEmpty` | BetterAllowlist/AllowListEntry.cs:91-94 | a null field renders as empty text; the all-null entry renders `AllowListEntry(ip=, name=, uuid=)` |
| `AllowListConfigs.Add` | BetterAllowlist/AllowListConfig.cs:15-18 | appends exactly one entry at the end, prefix unchanged, no dedup, enabled and removalReason unchanged |
| `AllowListConfigs.RemoveAllMatches` | BetterAllowlist/AllowListConfig.cs:20-29 | keeps exactly the entries that do not match the key, every copy of each; count = old length − new length = number of matches; 0 iff unchanged; flag and reason unchanged |
| `AllowListConfigs.RemoveAllMatchesIdempotent` | BetterAllowlist/AllowListConfig.cs:20-29 | a second removal with the same key returns 0 and changes nothing |
| `AllowListConfigs.AddThenRemoveRemovesIt` | BetterAllowlist/AllowListConfig.cs:15-29 | Add(e) then RemoveAllMatches(e) returns at least 1 |
| `AllowListConfigs.StringifyEntries` | BetterAllowlist/AllowListConfig.cs:31-34 | empty list gives `""`, one entry gives its ToString, otherwise starts with the first entry's text |
| `AllowListConfigs.StringifyAfterAdd` | BetterAllowlist/AllowListConfig.cs:31-34 | appending an entry appends `"\n"` and its ToString (just its ToString for an empty list) |
| `Allowlist.Write` | BetterAllowlist/BetterAllowlist.cs:230-241 | memory is unchanged, and a later Load reads back exactly the configuration written and returns true, whatever is in memory then |
| `Allowlist.Load` | BetterAllowlist/BetterAllowlist.cs:246-276 | absent file: fresh config (disabled, empty, default reason) and false; parse failure or null: config unchanged and true; good file: replaced and true |
| `Allowlist.Initialize` | BetterAllowlist/BetterAllowlist.cs:65-73 | writes only for an absent file; an existing file, even malformed, is never overwritten at startup |
| `Allowlist.List` | BetterAllowlist/BetterAllowlist.cs:137-146 | the "no entries" info iff the list is empty, otherwise the stringified entries |
| `Allowlist.RemovalKey` | BetterAllowlist/BetterAllowlist.cs:179-181 | the removal key is the entry the constructor builds for type "name", whatever players are connected |
| `Allowlist.RemovalKeyScope` | BetterAllowlist/BetterAllowlist.cs:179-181 | `remove v` drops exactly the entries with no ip, no uuid, and name unset or v |
| `Allowlist.CommandHandler` | BetterAllowlist/BetterAllowlist.cs:86-135 | a write persists the new config; no write leaves the file alone; an error reply never writes and, except a failed reload, changes nothing; only reload can change removalReason |
| `Allowlist.SingleAction` | BetterAllowlist/BetterAllowlist.cs:103-132 | one-token commands never touch the entries except reload, and write only what they leave in memory |
| `Allowlist.ManageEntry` | BetterAllowlist/BetterAllowlist.cs:149-177 | without a write the state is unchanged; the enabled flag is never changed |
| `Allowlist.RemoveEntry` | BetterAllowlist/BetterAllowlist.cs:179-190 | writes iff something was removed; zero removed is an error with no change; the count is the drop in length; no remaining entry matches the key |
| `Allowlist.OnJoin` | BetterAllowlist/BetterAllowlist.cs:193-228 | disabled, empty slot or bypass: admitted; otherwise disconnected iff no entry matches, and always with removalReason |
| `Allowlist.UnknownActionRejected` | BetterAllowlist/BetterAllowlist.cs:90-101 | no token or an unknown first token: error, no change, no write |
| `Allowlist.ToggleCommands` | BetterAllowlist/BetterAllowlist.cs:119-128 | enable / disable set the flag, keep entries and reason, and write |
| `Allowlist.LoneAddOrRemoveIgnored` | BetterAllowlist/BetterAllowlist.cs:103-132 | a lone add or remove does nothing |
| `Allowlist.ListIsReadOnly` | BetterAllowlist/BetterAllowlist.cs:116-118 | list changes and writes nothing |
| `Allowlist.ReloadOutcomes` | BetterAllowlist/BetterAllowlist.cs:107-115 | reload never writes; it reports failure iff the file is absent (then resets to defaults); a malformed file keeps the config and reports success |
| `Allowlist.RemoveCommand` | BetterAllowlist/BetterAllowlist.cs:157-162 | remove with zero matches: error, no change, no write; otherwise the matches go and the file is written |
| `Allowlist.AddCommand` | BetterAllowlist/BetterAllowlist.cs:157-176 | any non-remove action with three or more tokens: unknown type is an error with no change; a constructor that throws fails with no change; otherwise the constructed entry is appended and written |
| `Allowlist.TwoTokensFail` | BetterAllowlist/BetterAllowlist.cs:164-165 | two tokens with a non-remove action fail with no change |
| `Allowlist.AddForAbsentPlayerOpensTheGate` | BetterAllowlist/AllowListEntry.cs:23-71 | adding by ip, uuid or all when every slot holds a player with another name writes, and lets every later joiner in |
| `Allowlist.AddWithEmptySlotFails` | BetterAllowlist/BetterAllowlist.cs:173 | adding by ip, uuid or all fails with no change and no write when the lookup meets an empty slot first |
| `Whitelist.MatchesPlayer` | BetterWhitelist/BetterWhitelist.cs:257-270 | Matches(TSPlayer); its meaning is stated by `MatchesPlayerSelectsOneField` and `Variants.TypedPlayerMatchIsPatternMatch` |
| `Whitelist.MatchesEntry` | BetterWhitelist/BetterWhitelist.cs:272-275 | Matches(AllowListEntry); its meaning is stated by `MatchesEntryIsEquality` and `Variants.TypedEntryMatchIsPatternMatch` |
| `Whitelist.MatchesPlayerSelectsOneField` | BetterWhitelist/BetterWhitelist.cs:257-270 | a typed entry admits a player iff the one named attribute equals the value; the other attributes do not matter |
| `Whitelist.MatchesEntryIsEquality` | BetterWhitelist/BetterWhitelist.cs:272-275 | entry matching is equality of entries, hence reflexive, symmetric and transitive |
| `Whitelist.ParseType` | BetterWhitelist/BetterWhitelist.cs:152-164 | ip→IP, uuid→UUID, name→Name; every token but ip and uuid gives Name |
| `Whitelist.RemoveMatching` | BetterWhitelist/BetterWhitelist.cs:178 | every copy of the key goes and every copy of anything else stays; count = drop in length; 0 iff the key was absent iff nothing changed |
| `Whitelist.WriteConfig` | BetterWhitelist/BetterWhitelist.cs:139-147 | memory is unchanged, and a later LoadConfig reads back exactly the configuration written and returns true |
| `Whitelist.LoadConfig` | BetterWhitelist/BetterWhitelist.cs:100-127 | true iff the file holds a config or null; every outcome but a good file yields the defaults |
| `Whitelist.Initialize` | BetterWhitelist/BetterWhitelist.cs:39-50 | an absent or malformed file is overwritten with defaults; a null document yields defaults without a write |
| `Whitelist.StartupOverwritesMalformedFile` | BetterWhitelist/BetterWhitelist.cs:113-118 | LoadConfig reports a malformed file as missing, and startup replaces it with the defaults |
| `Whitelist.LoadConfigDocumented` | BetterWhitelist/BetterWhitelist.cs:99-127 | false iff the file is missing, as the comment on LoadConfig says; the configuration left is the one the code leaves |
| `Whitelist.InitializeDocumented` | BetterWhitelist/BetterWhitelist.cs:39-50 | over the documented LoadConfig, startup never overwrites a file that exists and writes the defaults only when there is none; memory ends up as with the code |
| `Whitelist.KindName` | BetterWhitelist/BetterWhitelist.cs:237-242 | an enum member interpolates as its name, at least two characters; `Whitelist.Line` states the names |
| `Whitelist.Line` | BetterWhitelist/BetterWhitelist.cs:134 | one entry's line is the kind's member name (`IP`, `Name` or `UUID`), a space, the value and a newline |
| `Whitelist.List` | BetterWhitelist/BetterWhitelist.cs:129-137 | the listing is empty iff there are no entries, is exactly the line of a single entry, and starts with the first entry's line |
| `Whitelist.ListAppend` | BetterWhitelist/BetterWhitelist.cs:129-137 | the listing of a concatenation is the concatenation of the listings |
| `Whitelist.ListHasOneLinePerEntry` | BetterWhitelist/BetterWhitelist.cs:132-135 | when no value contains a newline, the listing has exactly one newline per entry |
| `Whitelist.CommandHandler` | BetterWhitelist/BetterWhitelist.cs:52-95 | a write persists the new config; an error reply leaves state and file unchanged; only reload changes the flag or reason |
| `Whitelist.ManageEntry` | BetterWhitelist/BetterWhitelist.cs:150-191 | add appends the typed entry and writes; remove leaves exactly what RemoveMatching of the typed entry leaves (every equal entry gone, every other kept) and writes iff an equal entry was present; flag and reason unchanged |
| `Whitelist.OnJoin` | BetterWhitelist/BetterWhitelist.cs:194-223 | empty slot or bypass: admitted; otherwise disconnected iff enabled and no entry matches, with removalReason |
| `Whitelist.MalformedCommandsRejected` | BetterWhitelist/BetterWhitelist.cs:72-92 | a count other than 1 or 3, an unknown action or an unknown type: error, no change |
| `Whitelist.LoneTokensIgnored` | BetterWhitelist/BetterWhitelist.cs:57-70 | one-token commands other than reload and list are silently ignored |
| `Whitelist.ListAndReload` | BetterWhitelist/BetterWhitelist.cs:57-70 | list changes nothing; reload never writes, and any file but a good one resets memory to defaults |
| `Whitelist.AddCommand` | BetterWhitelist/BetterWhitelist.cs:166-174 | a valid add appends the mapped entry and writes |
| `Whitelist.RemoveCommand` | BetterWhitelist/BetterWhitelist.cs:176-187 | a valid remove with no equal entry is an error with no write; otherwise the configuration is RemoveMatching's (the key gone, every other entry kept), the file is written and the count reported |
| `Variants.AsPattern` | BetterWhitelist/BetterWhitelist.cs:244-255 | a typed entry corresponds to the pattern entry pinning exactly its one (attribute, value) |
| `Variants.TypedPlayerMatchIsPatternMatch` | BetterWhitelist/BetterWhitelist.cs:257-270 | typed player matching equals pattern matching of its reading |
| `Variants.TypedEntryMatchIsPatternMatch` | BetterWhitelist/BetterWhitelist.cs:272-275 | typed entry matching equals pattern entry matching of the readings |
| `Variants.JoinDecisionsAgree` | BetterWhitelist/BetterWhitelist.cs:194-223 | the typed plugin's join verdict equals the pattern plugin's on the corresponding config |
| `Variants.RemovalsAgree` | BetterWhitelist/BetterWhitelist.cs:176-187 | typed removal leaves and counts what pattern removal of the reading does |

## Left out

- JSON serialisation (Newtonsoft.Json, System.Text.Json) is not modelled. A
  file is one of four read outcomes, and a write of `c` leaves it in state
  `Holds(c)`. The model does not check that serialising and reading back is
  faithful, nor that null fields are omitted.
- File I/O failures are not modelled, so every write succeeds. `Write()` in
  BetterAllowlist logs and swallows exceptions; `WriteConfig()` in
  BetterWhitelist lets them propagate.
- Logging is not modelled (`Log` / `Console.WriteLine`).
- The exact message texts are not modelled, including the proper-syntax help.
  Replies are tags.
- Hook and command registration and `Dispose` are host plumbing.
- The join handler's `_config == null` guard is not modelled: the model's
  configuration always exists. The joining player is given as an optional
  slot, and an empty slot is admitted.
- Permission names are not modelled: permissions are four constructors, and
  `HasPermission` is a function parameter.
- Locking is not modelled: the source has none, and each handler runs as one step.

## Findings

| source | as written | input that shows it | evidently intended | confidence | as-written member | corrected member |
|---|---|---|---|---|---|---|
| BetterWhitelist/BetterWhitelist.cs:113-118 | the `catch` around deserialisation returns false, so `Initialize` overwrites the file with defaults | a configuration file that exists but fails to deserialise (`Unparsable`) at startup | return true, as the comment at BetterWhitelist/BetterWhitelist.cs:99 says, so a malformed file is kept | not executed | `Whitelist.StartupOverwritesMalformedFile` | `Whitelist.InitializeDocumented` |

=== FILE: allowlist_config.dfy ===
/** BetterAllowlist's in-memory configuration and its three operations. */
module AllowListConfigs {
  import opened AllowListEntries
  import Lists

  /** The message shown to a disconnected player unless the file says otherwise. */
  const DefaultRemovalReason := "You are not on the allowlist."

  /** AllowListConfig: the enforcement switch, the ordered entries and the
      disconnect message. */
  datatype Config = Config(enabled: bool, allowList: seq<Entry>, removalReason: string)

  /** `new AllowListConfig()`: disabled, no entries, the default message. */
  const Default := Config(false, [], DefaultRemovalReason)

  /** Add: append one entry at the end; duplicates are allowed. */
  function Add(c: Config, e: Entry): (r: Config)
    ensures |r.allowList| == |c.allowList| + 1
    ensures r.allowList[..|c.allowList|] == c.allowList && r.allowList[|c.allowList|] == e
    ensures r.enabled == c.enabled && r.removalReason == c.removalReason
  {
    c.(allowList := c.allowList + [e])
  }

  /** The predicate RemoveAllMatches hands to List.RemoveAll: the stored
      entry is the pattern, `key` the entry tested against it. */
  function Matching(key: Entry): Entry -> bool {
    v => MatchesEntry(v, key)
  }

  /** The configuration after a removal, and how many entries went. */
  datatype Removal = Removal(config: Config, removed: nat)

  /** RemoveAllMatches: drop every stored entry that matches `key` and
      report how many were dropped. */
  function RemoveAllMatches(c: Config, key: Entry): (r: Removal)
    ensures r.removed == |c.allowList| - |r.config.allowList|
    ensures r.removed == Lists.Count(c.allowList, Matching(key))
    ensures r.removed == 0 <==> r.config == c
    ensures forall i | 0 <= i < |r.config.allowList| ::
      r.config.allowList[i] in c.allowList && !MatchesEntry(r.config.allowList[i], key)
    ensures forall i | 0 <= i < |c.allowList| ::
      !MatchesEntry(c.allowList[i], key) ==> c.allowList[i] in r.config.allowList
    ensures r.config.enabled == c.enabled && r.config.removalReason == c.removalReason
    ensures forall v ::
              multiset(r.config.allowList)[v] == if MatchesEntry(v, key) then 0 else multiset(c.allowList)[v]
  {
    var kept := Lists.Keep(c.allowList, Matching(key));
    assert forall v :: multiset(kept)[v] == if MatchesEntry(v, key) then 0 else multiset(c.allowList)[v] by {
      forall v ensures multiset(kept)[v] == if MatchesEntry(v, key) then 0 else multiset(c.allowList)[v] {
        Lists.KeepMultiplicity(c.allowList, Matching(key), v);
      }
    }
    Removal(c.(allowList := kept), |c.allowList| - |kept|)
  }

  /** After a removal no stored entry matches the key any more, so removing
      with the same key again removes nothing and changes nothing. */
  lemma RemoveAllMatchesIdempotent(c: Config, key: Entry)
    ensures var once := RemoveAllMatches(c, key).config;
      RemoveAllMatches(once, key).removed == 0 && RemoveAllMatches(once, key).config == once
  {
    Lists.KeepIdempotent(c.allowList, Matching(key));
  }

  /** Removing with the entry just added removes at least that entry. */
  lemma AddThenRemoveRemovesIt(c: Config, e: Entry)
    ensures RemoveAllMatches(Add(c, e), e).removed >= 1
  {
  }

  /** StringifyEntries: the entries' ToString joined with newlines. */
  function StringifyEntries(c: Config): (r: string)
    ensures c.allowList == [] ==> r == ""
    ensures |c.allowList| == 1 ==> r == Render(c.allowList[0])
    ensures c.allowList != [] ==> Render(c.allowList[0]) <= r
  {
    Lists.Join("\n", Lists.Map(c.allowList, Render))
  }

  /** Adding an entry to a non-empty list appends a newline and its text;
      with the one-entry case this fixes the rendering of every list. */
  lemma StringifyAfterAdd(c: Config, e: Entry)
    ensures c.allowList == [] ==> StringifyEntries(Add(c, e)) == Render(e)
    ensures c.allowList != [] ==>
      StringifyEntries(Add(c, e)) == StringifyEntries(c) + "\n" + Render(e)
  {
    assert Lists.Map(c.allowList + [e], Render) == Lists.Map(c.allowList, Render) + [Render(e)];
    if c.allowList != [] {
      Lists.JoinAppend("\n", Lists.Map(c.allowList, Render), [Render(e)]);
    }
  }
}

=== FILE: allowlist_entry.dfy ===
/** BetterAllowlist's pattern entry: three optional fields, where a missing
    field is a wildcard and a present one must be matched exactly. */
module AllowListEntries {
  import opened Wrappers
  import opened Host

  /** An allowlist entry; `None` is the JSON `null` of a field left unset. */
  datatype Entry = Entry(ip: Option<string>, name: Option<string>, uuid: Option<string>) {

    /** The field selected by `f`. */
    function Get(f: Field): Option<string> {
      match f
      case IpField => ip
      case NameField => name
      case UuidField => uuid
    }
  }

  /** The entry with every field unset. */
  const Wildcard := Entry(None, None, None)

  /** The type tokens the (type, value) constructor recognises. */
  const ConstructorTypes: set<string> := {"ip", "name", "uuid", "all"}

  /** One field check: an unset pattern field admits anything, a set one
      admits only an equal value (a missing value is never equal). */
  predicate FieldAdmits(pattern: Option<string>, actual: Option<string>) {
    pattern.None? || pattern == actual
  }

  /** Matches(TSPlayer): the entry admits the player. */
  predicate MatchesPlayer(e: Entry, p: Player) {
    && FieldAdmits(e.ip, p.ip)
    && FieldAdmits(e.name, p.name)
    && FieldAdmits(e.uuid, p.uuid)
  }

  /** Matches(AllowListEntry): the receiver `e` is the pattern, `other` is
      the entry tested against it. */
  predicate MatchesEntry(e: Entry, other: Entry) {
    && FieldAdmits(e.ip, other.ip)
    && FieldAdmits(e.name, other.name)
    && FieldAdmits(e.uuid, other.uuid)
  }

  /** The facts an entry insists on: one (attribute, value) pair per set field. */
  ghost function Constraints(e: Entry): set<(Field, string)> {
    Pin(IpField, e.ip) + Pin(NameField, e.name) + Pin(UuidField, e.uuid)
  }

  /** An entry admits a player exactly when every fact the entry insists on
      is a fact about the player: the per-field checks, ANDed. */
  lemma MatchesPlayerIffConstraintsHold(e: Entry, p: Player)
    ensures MatchesPlayer(e, p) <==> Constraints(e) <= p.Facts()
  {
  }

  /** Entry-to-entry matching is inclusion of constraints: the pattern insists
      on no more than the other entry does. */
  lemma MatchesEntryIffConstraintsIncluded(e: Entry, other: Entry)
    ensures MatchesEntry(e, other) <==> Constraints(e) <= Constraints(other)
  {
  }

  /** A player seen as the entry that pins all three of its attributes. */
  function AsEntry(p: Player): (e: Entry)
    ensures Constraints(e) == p.Facts()
  {
    Entry(p.ip, p.name, p.uuid)
  }

  /** Matching a player is matching the entry made from that player. */
  lemma MatchesPlayerIsMatchesEntry(e: Entry, p: Player)
    ensures MatchesPlayer(e, p) <==> MatchesEntry(e, AsEntry(p))
  {
  }

  /** A single set field that disagrees with the player rejects the player,
      whatever the other two fields say. */
  lemma DisagreeingFieldRejects(e: Entry, p: Player, f: Field)
    requires e.Get(f).Some? && e.Get(f) != p.Get(f)
    ensures !MatchesPlayer(e, p)
  {
  }

  /** The all-null entry admits every player and every entry. */
  lemma WildcardMatchesEverything(p: Player, other: Entry)
    ensures MatchesPlayer(Wildcard, p) && MatchesEntry(Wildcard, other)
  {
  }

  /** Entry-to-entry matching is a preorder: reflexive and transitive. */
  lemma MatchesEntryIsPreorder(a: Entry, b: Entry, c: Entry)
    ensures MatchesEntry(a, a)
    ensures MatchesEntry(a, b) && MatchesEntry(b, c) ==> MatchesEntry(a, c)
  {
  }

  /** ... but not symmetric: `{name: A}` matches `{ip: X, name: A}`, not the
      other way round. */
  lemma MatchesEntryIsNotSymmetric()
    ensures MatchesEntry(Entry(None, Some("A"), None), Entry(Some("X"), Some("A"), None))
    ensures !MatchesEntry(Entry(Some("X"), Some("A"), None), Entry(None, Some("A"), None))
  {
  }

  /** Matching is monotone: whatever an entry matches, a pattern that matches
      that entry matches too. */
  lemma MatchesPlayerThroughEntry(a: Entry, b: Entry, p: Player)
    requires MatchesEntry(a, b) && MatchesPlayer(b, p)
    ensures MatchesPlayer(a, p)
  {
  }

  /** How the constructor's foreach-with-break loop over TShock.Players
      ends: at a player with the wanted name, at the end of the array, or
      at an empty (null) slot, whose `Name` it reads and so throws
      NullReferenceException. */
  datatype Lookup = Found(player: Player) | NotFound | EmptySlot

  /** The loop walks past slots 0 .. i-1: each holds a player with another name. */
  predicate PassesSlots(slots: seq<Option<Player>>, value: string, i: nat)
    requires i <= |slots|
  {
    forall j | 0 <= j < i :: slots[j].Some? && slots[j].value.name != Some(value)
  }

  /** The lookup loop over the player slots; `None` is an empty slot. */
  function FirstNamed(slots: seq<Option<Player>>, value: string): (r: Lookup)
    ensures r.Found? ==> Some(r.player) in slots && r.player.name == Some(value)
    ensures r.NotFound? <==> PassesSlots(slots, value, |slots|)
  {
    if slots == [] then NotFound
    else if slots[0].None? then EmptySlot
    else if slots[0].value.name == Some(value) then Found(slots[0].value)
    else
      var r := FirstNamed(slots[1..], value);
      assert PassesSlots(slots, value, |slots|) <==> PassesSlots(slots[1..], value, |slots| - 1) by {
        if PassesSlots(slots[1..], value, |slots| - 1) {
          forall j | 0 <= j < |slots| ensures slots[j].Some? && slots[j].value.name != Some(value) {
            if j > 0 { assert slots[j] == slots[1..][j - 1]; }
          }
        }
      }
      r
  }

  /** The loop stops at the first slot it does not walk past: a player with
      the name is found, an empty slot throws. */
  lemma {:induction false} FirstNamedStopsAtFirstOtherSlot(slots: seq<Option<Player>>, value: string, i: nat)
    requires i < |slots| && PassesSlots(slots, value, i)
    ensures slots[i].None? ==> FirstNamed(slots, value) == EmptySlot
    ensures slots[i].Some? && slots[i].value.name == Some(value) ==> FirstNamed(slots, value) == Found(slots[i].value)
  {
    if i > 0 {
      assert PassesSlots(slots[1..], value, i - 1) by {
        forall j | 0 <= j < i - 1 ensures slots[1..][j].Some? && slots[1..][j].value.name != Some(value) {
          assert slots[1..][j] == slots[j + 1];
        }
      }
      FirstNamedStopsAtFirstOtherSlot(slots[1..], value, i - 1);
    }
  }

  /** The AllowListEntry(type, value) constructor, with TShock.Players passed
      in as `slots`. "name" stores the value; "ip", "uuid" and "all" copy
      attributes from the first player named `value`; every other type, and
      a lookup that reaches the end of the array, leaves all fields unset.
      `None` is the NullReferenceException of a lookup that reaches an empty
      slot first. */
  function FromCommand(kind: string, value: string, slots: seq<Option<Player>>): (r: Option<Entry>)
    ensures kind == "name" ==> r == Some(Entry(None, Some(value), None))
    ensures kind !in ConstructorTypes ==> r == Some(Wildcard)
    ensures kind in ConstructorTypes && kind != "name" ==> (r.None? <==> FirstNamed(slots, value).EmptySlot?)
    ensures kind != "name" && FirstNamed(slots, value).NotFound? ==> r == Some(Wildcard)
    ensures r.Some? && r.value.name.Some? ==> r.value.name == Some(value)
    ensures r.Some? && r.value.ip.Some? ==>
      exists q | Some(q) in slots :: q.name == Some(value) && q.ip == r.value.ip
    ensures r.Some? && r.value.uuid.Some? ==>
      exists q | Some(q) in slots :: q.name == Some(value) && q.uuid == r.value.uuid
  {
    if kind == "name" then Some(Entry(None, Some(value), None))
    else if kind in ConstructorTypes then
      match FirstNamed(slots, value)
      case EmptySlot => None
      case NotFound => Some(Wildcard)
      case Found(q) =>
        if kind == "ip" then Some(Entry(q.ip, None, None))
        else if kind == "uuid" then Some(Entry(None, None, q.uuid))
        else Some(Entry(q.ip, q.name, q.uuid))
    else Some(Wildcard)
  }

  /** When every slot holds a player and none has the given name, every type
      but "name" yields an entry that admits every player and matches every
      entry. */
  lemma LookupMissAdmitsEveryone(kind: string, value: string, slots: seq<Option<Player>>, p: Player, other: Entry)
    requires kind != "name"
    requires PassesSlots(slots, value, |slots|)
    ensures FromCommand(kind, value, slots) == Some(Wildcard)
    ensures MatchesPlayer(Wildcard, p) && MatchesEntry(Wildcard, other)
  {
  }

  /** An empty slot before any player with the name makes "ip", "uuid" and
      "all" throw instead of building an entry. */
  lemma EmptySlotBeforeMatchFails(kind: string, value: string, slots: seq<Option<Player>>, i: nat)
    requires kind == "ip" || kind == "uuid" || kind == "all"
    requires i < |slots| && PassesSlots(slots, value, i) && slots[i].None?
    ensures FromCommand(kind, value, slots) == None
  {
    FirstNamedStopsAtFirstOtherSlot(slots, value, i);
  }

  /** When slot `i` holds the first player named `value` and no empty slot
      comes before it, "ip", "uuid" and "all" take that player's attributes:
      "all" pins the name to `value` and copies the player's IP and UUID. */
  lemma ResolvedFromEarliestPlayer(value: string, slots: seq<Option<Player>>, i: nat)
    requires i < |slots| && PassesSlots(slots, value, i)
    requires slots[i].Some? && slots[i].value.name == Some(value)
    ensures FromCommand("ip", value, slots) == Some(Entry(slots[i].value.ip, None, None))
    ensures FromCommand("uuid", value, slots) == Some(Entry(None, None, slots[i].value.uuid))
    ensures FromCommand("all", value, slots) == Some(Entry(slots[i].value.ip, Some(value), slots[i].value.uuid))
  {
    FirstNamedStopsAtFirstOtherSlot(slots, value, i);
  }

  /** How string interpolation renders a nullable field: null prints nothing. */
  function Text(v: Option<string>): string {
    v.GetOr("")
  }

  /** ToString: `AllowListEntry(ip=…, name=…, uuid=…)`. */
  function Render(e: Entry): (s: string)
    ensures "AllowListEntry(ip=" <= s && s[|s| - 1] == ')'
    ensures |s| == 33 + |Text(e.ip)| + |Text(e.name)| + |Text(e.uuid)|
    ensures s[18..18 + |Text(e.ip)|] == Text(e.ip)
    ensures s[18 + |Text(e.ip)|..25 + |Text(e.ip)|] == ", name="
    ensures s[25 + |Text(e.ip)|..25 + |Text(e.ip)| + |Text(e.name)|] == Text(e.name)
    ensures s[|s| - 8 - |Text(e.uuid)|..|s| - 1 - |Text(e.uuid)|] == ", uuid="
    ensures s[|s| - 1 - |Text(e.uuid)|..|s| - 1] == Text(e.uuid)
  {
    "AllowListEntry(ip=" + Text(e.ip) + ", name=" + Text(e.name) + ", uuid=" + Text(e.uuid) + ")"
  }

  /** An unset field renders exactly like an empty one, so the text cannot
      tell `null` from `""`. */
  lemma RenderNullAsEmpty(e: Entry)
    ensures Render(e) == Render(Entry(Some(Text(e.ip)), Some(Text(e.name)), Some(Text(e.uuid))))
    ensures Render(Wildcard) == "AllowListEntry(ip=, name=, uuid=)"
  {
  }
}

=== FILE: allowlist_plugin.dfy ===
/** The BetterAllowlist plugin: the allowlist command, the join check and
    loading the configuration file. The plugin's mutable `_config` field and
    the file on disk become the two parts of a `Plugin` value, and each
    handler returns the next one. */
module Allowlist {
  import opened Wrappers
  import opened Host
  import opened Storage
  import opened AllowListEntries
  import opened AllowListConfigs
  import Lists

  /** Type tokens accepted by `allowlist add <type> <player>`. */
  const FilterTypes: set<string> := {"name", "ip", "uuid", "all"}

  /** First tokens accepted by the allowlist command. */
  const Actions: set<string> := {"add", "remove", "list", "enable", "disable", "reload"}

  /** The plugin's state: the configuration in memory and the file. */
  datatype Plugin = Plugin(config: Config, disk: FileState<Config>)

  /** What the command sends back to the player who issued it. */
  datatype Reply =
    | MissingAction
    | InvalidAction(action: string)
    | ReloadFailed
    | Reloaded
    | NoEntries
    | Entries(text: string)
    | Enabled
    | Disabled
    | Silent
    | SyntaxError
    | CommandFailed
    | InvalidType(kind: string)
    | Added
    | NothingRemoved
    | Removed(count: nat)
  {
    /** Sent with SendErrorMessage, or an exception the command host reports. */
    predicate IsError() {
      MissingAction? || InvalidAction? || ReloadFailed? || SyntaxError? ||
      CommandFailed? || InvalidType? || NothingRemoved?
    }
  }

  /** The result of one command: the next state, the reply, and whether
      `Write()` ran. */
  datatype Outcome = Outcome(plugin: Plugin, reply: Reply, wrote: bool)

  /** What Load() leaves in `_config`, and what it returns. */
  datatype Loaded = Loaded(config: Config, found: bool)

  /** Write(): the in-memory configuration is unchanged, and a later Load()
      reads back exactly what was written, whatever is in memory then. */
  function Write(p: Plugin): (r: Plugin)
    ensures r.config == p.config
    ensures forall c :: Load(c, r.disk) == Loaded(p.config, true)
  {
    p.(disk := Holds(p.config))
  }

  /** Load(): a missing file resets to defaults and returns false; an
      unreadable file or a `null` document keeps the current configuration
      and still returns true; a good file replaces the configuration. */
  function Load(current: Config, file: FileState<Config>): (r: Loaded)
    ensures r.found <==> !file.Absent?
    ensures file.Absent? ==>
      !r.config.enabled && r.config.allowList == [] && r.config.removalReason == DefaultRemovalReason
    ensures file.Unparsable? || file.NullDocument? ==> r.config == current
    ensures file.Holds? ==> r.config == file.content
  {
    match file
    case Absent => Loaded(Default, false)
    case Unparsable => Loaded(current, true)
    case NullDocument => Loaded(current, true)
    case Holds(c) => Loaded(c, true)
  }

  /** Initialize(): start from `new AllowListConfig()`, load, and write only
      when Load() returned false. A file that exists is never overwritten at
      startup, even when it cannot be read. */
  function Initialize(file: FileState<Config>): (p: Plugin)
    ensures !file.Absent? ==> p.disk == file
    ensures file.Absent? ==> p.config == Default && p.disk == Holds(Default)
    ensures file.Holds? ==> p.config == file.content
    ensures file.Unparsable? || file.NullDocument? ==> p.config == Default
  {
    var loaded := Load(Default, file);
    var p := Plugin(loaded.config, file);
    if loaded.found then p else Write(p)
  }

  /** List(): an info message for an empty list, the rendered entries otherwise. */
  function List(c: Config): (r: Reply)
    ensures r == NoEntries <==> c.allowList == []
    ensures c.allowList != [] ==> r == Entries(StringifyEntries(c))
  {
    if |c.allowList| == 0 then NoEntries else Entries(StringifyEntries(c))
  }

  /** The key `allowlist remove <value>` removes with. The source passes the
      bare string to RemoveAllMatches, which takes an entry; the model reads
      it as the entry the (type, value) constructor builds for type "name". */
  function RemovalKey(target: string): (k: Entry)
    ensures forall slots: seq<Option<Player>> :: FromCommand("name", target, slots) == Some(k)
  {
    Entry(None, Some(target), None)
  }

  /** `allowlist remove <value>` drops exactly the entries that pin neither
      IP nor UUID and whose name is unset or equal to the value: an entry
      that pins an IP or UUID can never be removed this way, and an all-null
      entry is removed by any value. */
  lemma RemovalKeyScope(target: string, v: Entry)
    ensures MatchesEntry(v, RemovalKey(target)) <==>
      v.ip.None? && v.uuid.None? && (v.name.None? || v.name == Some(target))
  {
  }

  /** The command handler: validate the action, then dispatch. */
  function CommandHandler(p: Plugin, params: seq<string>, slots: seq<Option<Player>>): (o: Outcome)
    ensures o.wrote ==> o.plugin.disk == Holds(o.plugin.config)
    ensures !o.wrote ==> o.plugin.disk == p.disk
    ensures o.reply.IsError() ==> !o.wrote
    ensures o.reply.IsError() && !o.reply.ReloadFailed? ==> o.plugin == p
    ensures params != ["reload"] ==> o.plugin.config.removalReason == p.config.removalReason
  {
    if |params| == 0 then Outcome(p, MissingAction, false)
    else if params[0] !in Actions then Outcome(p, InvalidAction(params[0]), false)
    else if |params| == 1 then SingleAction(p, params[0])
    else ManageEntry(p, params, slots)
  }

  /** The one-token commands; single `add` and `remove` do nothing. */
  function SingleAction(p: Plugin, action: string): (o: Outcome)
    ensures o.wrote ==> o.plugin.disk == Holds(o.plugin.config)
    ensures !o.wrote ==> o.plugin.disk == p.disk
    ensures o.plugin.config.allowList == p.config.allowList || action == "reload"
  {
    if action == "reload" then
      var loaded := Load(p.config, p.disk);
      Outcome(p.(config := loaded.config), if loaded.found then Reloaded else ReloadFailed, false)
    else if action == "list" then Outcome(p, List(p.config), false)
    else if action == "enable" then Outcome(Write(p.(config := p.config.(enabled := true))), Enabled, true)
    else if action == "disable" then Outcome(Write(p.(config := p.config.(enabled := false))), Disabled, true)
    else Outcome(p, Silent, false)
  }

  /** ManageEntry: `remove <value>`, or `<action> <type> <player>` for any
      other action. With only two tokens the source reads a third one that
      is not there; the command host reports the exception. */
  function ManageEntry(p: Plugin, args: seq<string>, slots: seq<Option<Player>>): (o: Outcome)
    ensures o.wrote ==> o.plugin.disk == Holds(o.plugin.config)
    ensures !o.wrote ==> o.plugin == p
    ensures o.plugin.config.enabled == p.config.enabled
  {
    if |args| < 2 then Outcome(p, SyntaxError, false)
    else if args[0] == "remove" then RemoveEntry(p, args[1])
    else if |args| < 3 then Outcome(p, CommandFailed, false)
    else if args[1] !in FilterTypes then Outcome(p, InvalidType(args[1]), false)
    else
      match FromCommand(args[1], args[2], slots)
      case None => Outcome(p, CommandFailed, false)
      case Some(entry) => Outcome(Write(p.(config := Add(p.config, entry))), Added, true)
  }

  /** RemoveEntry: nothing removed is an error and nothing is written. */
  function RemoveEntry(p: Plugin, target: string): (o: Outcome)
    ensures o.wrote <==> o.reply.Removed?
    ensures !o.wrote ==> o.plugin == p && o.reply == NothingRemoved
    ensures o.wrote ==> o.plugin.disk == Holds(o.plugin.config)
    ensures o.reply.Removed? ==>
      o.reply.count > 0 && o.reply.count + |o.plugin.config.allowList| == |p.config.allowList|
    ensures forall i | 0 <= i < |o.plugin.config.allowList| ::
      !MatchesEntry(o.plugin.config.allowList[i], RemovalKey(target))
  {
    var r := RemoveAllMatches(p.config, RemovalKey(target));
    if r.removed == 0 then Outcome(p, NothingRemoved, false)
    else Outcome(Write(p.(config := r.config)), Removed(r.removed), true)
  }

  /** The test handed to Enumerable.Any at join time. */
  function Admits(p: Player): Entry -> bool {
    e => MatchesPlayer(e, p)
  }

  /** OnJoin: `joined` is the player slot of the joining client (empty when
      the server has no player there), `hasPermission` the host's permission
      query for that player. */
  function OnJoin(config: Config, joined: Option<Player>, hasPermission: Permission -> bool): (v: Verdict)
    ensures !config.enabled ==> v == Admit
    ensures joined.None? || HasBypass(hasPermission) ==> v == Admit
    ensures v.Disconnect? ==> v.reason == config.removalReason
    ensures config.enabled && joined.Some? && !HasBypass(hasPermission) ==>
      (v.Disconnect? <==>
        forall i | 0 <= i < |config.allowList| :: !MatchesPlayer(config.allowList[i], joined.value))
  {
    if !config.enabled then Admit
    else if joined.None? then Admit
    else if HasBypass(hasPermission) then Admit
    else if Lists.Any(config.allowList, Admits(joined.value)) then Admit
    else Disconnect(config.removalReason)
  }

  /** No action, or an unknown one: an error and no change. */
  lemma UnknownActionRejected(p: Plugin, params: seq<string>, slots: seq<Option<Player>>)
    requires |params| == 0 || params[0] !in Actions
    ensures var o := CommandHandler(p, params, slots);
      o.plugin == p && !o.wrote && o.reply.IsError()
  {
  }

  /** `enable` and `disable` set the switch, keep the entries and message,
      and write the result. */
  lemma ToggleCommands(p: Plugin, slots: seq<Option<Player>>)
    ensures var o := CommandHandler(p, ["enable"], slots);
      o.plugin.config == p.config.(enabled := true) && o.wrote && o.reply == Enabled
    ensures var o := CommandHandler(p, ["disable"], slots);
      o.plugin.config == p.config.(enabled := false) && o.wrote && o.reply == Disabled
  {
  }

  /** A lone `add` or `remove` is accepted and ignored. */
  lemma LoneAddOrRemoveIgnored(p: Plugin, slots: seq<Option<Player>>)
    ensures CommandHandler(p, ["add"], slots) == Outcome(p, Silent, false)
    ensures CommandHandler(p, ["remove"], slots) == Outcome(p, Silent, false)
  {
  }

  /** `list` changes nothing and writes nothing. */
  lemma ListIsReadOnly(p: Plugin, slots: seq<Option<Player>>)
    ensures var o := CommandHandler(p, ["list"], slots);
      o.plugin == p && !o.wrote &&
      (p.config.allowList == [] ==> o.reply == NoEntries) &&
      (p.config.allowList != [] ==> o.reply == Entries(StringifyEntries(p.config)))
  {
  }

  /** `reload` never writes. It fails only for a missing file, after
      resetting the configuration to defaults; an unreadable file keeps the
      configuration in memory and still reports success. */
  lemma ReloadOutcomes(p: Plugin, slots: seq<Option<Player>>)
    ensures var o := CommandHandler(p, ["reload"], slots);
      && !o.wrote && o.plugin.disk == p.disk
      && (o.reply == ReloadFailed <==> p.disk.Absent?)
      && (p.disk.Absent? ==> o.plugin.config == Default)
      && (p.disk.Unparsable? || p.disk.NullDocument? ==> o.plugin == p && o.reply == Reloaded)
      && (p.disk.Holds? ==> o.plugin.config == p.disk.content)
  {
  }

  /** `remove <value> …`: when nothing matches, an error and no write;
      otherwise exactly the matching entries go and the file is written. */
  lemma RemoveCommand(p: Plugin, params: seq<string>, slots: seq<Option<Player>>)
    requires |params| >= 2 && params[0] == "remove"
    ensures var o := CommandHandler(p, params, slots);
      var r := RemoveAllMatches(p.config, RemovalKey(params[1]));
      && (r.removed == 0 ==> o == Outcome(p, NothingRemoved, false))
      && (r.removed > 0 ==> o.plugin.config == r.config && o.wrote && o.reply == Removed(r.removed))
  {
  }

  /** Any other action with three or more tokens (`list`, `enable` and
      `reload` included) adds the constructed entry and writes, provided the
      type is known and the constructor does not throw; an unknown type, or a
      lookup that meets an empty slot, is an error and changes nothing. */
  lemma AddCommand(p: Plugin, params: seq<string>, slots: seq<Option<Player>>)
    requires |params| >= 3 && params[0] in Actions && params[0] != "remove"
    ensures var o := CommandHandler(p, params, slots);
      && (params[1] !in FilterTypes ==> o == Outcome(p, InvalidType(params[1]), false))
      && (params[1] in FilterTypes && FromCommand(params[1], params[2], slots).None? ==>
            o == Outcome(p, CommandFailed, false))
      && (params[1] in FilterTypes && FromCommand(params[1], params[2], slots).Some? ==>
            o.plugin.config == Add(p.config, FromCommand(params[1], params[2], slots).value) &&
            o.wrote && o.reply == Added)
  {
  }

  /** Two tokens with any action but `remove` fail before the type is even
      checked, with no change. */
  lemma TwoTokensFail(p: Plugin, params: seq<string>, slots: seq<Option<Player>>)
    requires |params| == 2 && params[0] in Actions && params[0] != "remove"
    ensures CommandHandler(p, params, slots) == Outcome(p, CommandFailed, false)
  {
  }

  /** Adding an entry by ip, uuid or all for a name no player has, when
      every slot is occupied, stores the all-null entry, after which every
      joining player is admitted. */
  lemma AddForAbsentPlayerOpensTheGate(p: Plugin, kind: string, target: string, slots: seq<Option<Player>>,
                                       joiner: Player, hasPermission: Permission -> bool)
    requires kind in FilterTypes && kind != "name"
    requires PassesSlots(slots, target, |slots|)
    ensures var o := CommandHandler(p, ["add", kind, target], slots);
      o.wrote && OnJoin(o.plugin.config, Some(joiner), hasPermission) == Admit
  {
    var o := CommandHandler(p, ["add", kind, target], slots);
    var entries := o.plugin.config.allowList;
    assert entries[|entries| - 1] == Wildcard;
    assert Admits(joiner)(entries[|entries| - 1]);
  }

  /** Adding by ip, uuid or all fails, with no change and no write, when the
      lookup reaches an empty slot before a player with the name. */
  lemma AddWithEmptySlotFails(p: Plugin, kind: string, target: string, slots: seq<Option<Player>>, i: nat)
    requires kind in FilterTypes && kind != "name"
    requires i < |slots| && PassesSlots(slots, target, i) && slots[i].None?
    ensures CommandHandler(p, ["add", kind, target], slots) == Outcome(p, CommandFailed, false)
  {
    EmptySlotBeforeMatchFails(kind, target, slots, i);
  }
}

=== FILE: host.dfy ===
/** What the game server host exposes to both plugins: connected players,
    permission queries and the verdict a join handler may reach. */
module Host {
  import opened Wrappers
  import Lists

  /** The three identity attributes of a player or an entry. */
  datatype Field = IpField | NameField | UuidField

  /** A connected player (TShock's TSPlayer) reduced to its Name, IP and UUID.
      Any of them may be missing. */
  datatype Player = Player(name: Option<string>, ip: Option<string>, uuid: Option<string>) {

    /** The attribute selected by `f`. */
    function Get(f: Field): Option<string> {
      match f
      case IpField => ip
      case NameField => name
      case UuidField => uuid
    }

    /** Everything known about this player, as (attribute, value) facts. */
    ghost function Facts(): set<(Field, string)> {
      Pin(IpField, ip) + Pin(NameField, name) + Pin(UuidField, uuid)
    }
  }

  /** The single fact "attribute `f` is `v`", or no fact when `v` is absent. */
  ghost function Pin(f: Field, v: Option<string>): (r: set<(Field, string)>)
    ensures forall g, s :: (g, s) in r <==> g == f && v == Some(s)
  {
    if v.Some? then {(f, v.value)} else {}
  }

  /** The permissions the server can be asked about on behalf of a player. */
  datatype Permission = WhitelistAdmin | Ban | Kick | ImmuneToKick

  /** The permissions that exempt a player from the allowlist check
      (Permissions.whitelist, .ban, .kick and .immunetokick). */
  const BypassPermissions: seq<Permission> := [WhitelistAdmin, Ban, Kick, ImmuneToKick]

  /** True when the player holds at least one bypass permission; `hasPermission`
      stands for the host's TSPlayer.HasPermission. */
  predicate HasBypass(hasPermission: Permission -> bool) {
    Lists.Any(BypassPermissions, hasPermission)
  }

  /** What a join handler decides: let the player stay, or disconnect them
      with a message. */
  datatype Verdict = Admit | Disconnect(reason: string)

  /** Holding any of the four bypass permissions is exactly what `HasBypass` asks. */
  lemma HasBypassIffAnyPermission(hasPermission: Permission -> bool)
    ensures HasBypass(hasPermission) <==>
      hasPermission(WhitelistAdmin) || hasPermission(Ban) || hasPermission(Kick) || hasPermission(ImmuneToKick)
  {
    if hasPermission(WhitelistAdmin) { assert hasPermission(BypassPermissions[0]); }
    if hasPermission(Ban) { assert hasPermission(BypassPermissions[1]); }
    if hasPermission(Kick) { assert hasPermission(BypassPermissions[2]); }
    if hasPermission(ImmuneToKick) { assert hasPermission(BypassPermissions[3]); }
  }
}

=== FILE: lists.dfy ===
/** The collection operations the plugins borrow from .NET: Enumerable.Any,
    Enumerable.Select,
    List<T>.RemoveAll and String.Join, as pure functions on sequences. */
module Lists {

  /** Enumerable.Any: some element of `s` satisfies `p`. */
  predicate Any<T>(s: seq<T>, p: T -> bool) {
    exists i | 0 <= i < |s| :: p(s[i])
  }

  /** How many elements of `s` satisfy `p`. */
  function Count<T>(s: seq<T>, p: T -> bool): nat {
    if s == [] then 0 else (if p(s[0]) then 1 else 0) + Count(s[1..], p)
  }

  /** What List<T>.RemoveAll(p) leaves behind: the elements `p` rejects, in
      their original relative order. RemoveAll returns the number it dropped,
      which is `Count(s, p)`. */
  function Keep<T>(s: seq<T>, p: T -> bool): (r: seq<T>)
    ensures |r| + Count(s, p) == |s|
    ensures forall i | 0 <= i < |r| :: r[i] in s && !p(r[i])
    ensures forall i | 0 <= i < |s| :: !p(s[i]) ==> s[i] in r
    ensures |r| == |s| ==> r == s
  {
    if s == [] then []
    else if p(s[0]) then Keep(s[1..], p)
    else [s[0]] + Keep(s[1..], p)
  }

  /** Enumerable.Select: `f` applied to every element, in order. */
  function Map<A, B>(s: seq<A>, f: A -> B): (r: seq<B>)
    ensures |r| == |s|
    ensures forall i | 0 <= i < |s| :: r[i] == f(s[i])
  {
    if s == [] then [] else [f(s[0])] + Map(s[1..], f)
  }

  /** String.Join over sequences: the parts with `sep` between neighbours. */
  function Join<T>(sep: seq<T>, parts: seq<seq<T>>): (r: seq<T>)
    ensures parts == [] ==> r == []
    ensures |parts| == 1 ==> r == parts[0]
    ensures parts != [] ==> parts[0] <= r
  {
    if parts == [] then []
    else if |parts| == 1 then parts[0]
    else parts[0] + sep + Join(sep, parts[1..])
  }

  /** Nothing is counted exactly when nothing satisfies `p`. */
  lemma {:induction false} CountZeroIffNone<T>(s: seq<T>, p: T -> bool)
    ensures Count(s, p) == 0 <==> !Any(s, p)
  {
    if s != [] {
      CountZeroIffNone(s[1..], p);
      if Any(s[1..], p) {
        var i :| 0 <= i < |s[1..]| && p(s[1..][i]);
        assert p(s[i + 1]);
      }
      if Any(s, p) && !p(s[0]) {
        var i :| 0 <= i < |s| && p(s[i]);
        assert p(s[1..][i - 1]);
      }
    }
  }

  /** Counting distributes over concatenation. */
  lemma {:induction false} CountAppend<T>(a: seq<T>, b: seq<T>, p: T -> bool)
    ensures Count(a + b, p) == Count(a, p) + Count(b, p)
  {
    if a == [] {
      assert a + b == b;
    } else {
      assert (a + b)[0] == a[0];
      assert (a + b)[1..] == a[1..] + b;
      CountAppend(a[1..], b, p);
    }
  }

  /** RemoveAll works element by element: filtering a concatenation filters
      each part and keeps them in order. With `Keep([x], p)` this pins the
      result down completely. */
  lemma {:induction false} KeepAppend<T>(a: seq<T>, b: seq<T>, p: T -> bool)
    ensures Keep(a + b, p) == Keep(a, p) + Keep(b, p)
  {
    if a == [] {
      assert a + b == b;
    } else {
      assert (a + b)[0] == a[0];
      assert (a + b)[1..] == a[1..] + b;
      KeepAppend(a[1..], b, p);
    }
  }

  /** RemoveAll keeps every copy of what it keeps: a value `p` rejects
      occurs in the result exactly as often as in `s`, and a value `p`
      accepts does not occur at all. */
  lemma {:induction false} KeepMultiplicity<T>(s: seq<T>, p: T -> bool, x: T)
    ensures multiset(Keep(s, p))[x] == if p(x) then 0 else multiset(s)[x]
  {
    if s != [] {
      KeepMultiplicity(s[1..], p, x);
      assert s == [s[0]] + s[1..];
    }
  }

  /** A second RemoveAll with the same predicate removes nothing. */
  lemma KeepIdempotent<T>(s: seq<T>, p: T -> bool)
    ensures Keep(Keep(s, p), p) == Keep(s, p)
  {
  }

  /** Joining two non-empty lists of parts puts one separator between them. */
  lemma {:induction false} JoinAppend<T>(sep: seq<T>, a: seq<seq<T>>, b: seq<seq<T>>)
    requires a != [] && b != []
    ensures Join(sep, a + b) == Join(sep, a) + sep + Join(sep, b)
  {
    var ab := a + b;
    assert ab[0] == a[0];
    assert ab[1..] == a[1..] + b;
    assert |ab| > 1;
    assert Join(sep, ab) == a[0] + sep + Join(sep, ab[1..]);
    if |a| == 1 {
      assert a[1..] + b == b;
    } else {
      JoinAppend(sep, a[1..], b);
      assert Join(sep, a) == a[0] + sep + Join(sep, a[1..]);
    }
  }

  /** Filtering commutes with mapping when the two predicates agree on
      every element: removing then translating equals translating then
      removing. */
  lemma {:induction false} KeepMap<A, B>(s: seq<A>, f: A -> B, p: A -> bool, q: B -> bool)
    requires forall i | 0 <= i < |s| :: p(s[i]) == q(f(s[i]))
    ensures Map(Keep(s, p), f) == Keep(Map(s, f), q)
  {
    if s != [] {
      KeepMap(s[1..], f, p, q);
      var ms := Map(s, f);
      assert ms[0] == f(s[0]) && ms[1..] == Map(s[1..], f);
      var rest := Keep(s[1..], p);
      if !p(s[0]) {
        var kept := [s[0]] + rest;
        assert kept[0] == s[0] && kept[1..] == rest;
      }
    }
  }
}

=== FILE: storage.dfy ===
/** The configuration file as the plugins see it when they read it back.
    JSON is not modelled: a file is one of four read outcomes. */
module Storage {

  /** `Absent`: File.Exists is false. `Unparsable`: the deserializer throws.
      `NullDocument`: the deserializer returns null (a file holding `null`).
      `Holds(content)`: the file deserializes to `content`. A write of a
      configuration `c` leaves the file in state `Holds(c)`. */
  datatype FileState<C> = Absent | Unparsable | NullDocument | Holds(content: C)
}

=== FILE: variants.dfy ===
/** How the two plugins relate: a typed entry is the pattern entry that
    pins only its one attribute, and under that reading the typed plugin's
    matching, removal and join decision are the pattern plugin's. */
module Variants {
  import opened Wrappers
  import Host
  import Lists
  import AllowListEntries
  import AllowListConfigs
  import Allowlist
  import Whitelist

  /** The pattern entry that pins only the attribute a typed entry names. */
  function AsPattern(e: Whitelist.Entry): (r: AllowListEntries.Entry)
    ensures AllowListEntries.Constraints(r) == {(Whitelist.FieldOf(e.kind), e.value)}
  {
    match e.kind
    case IP => AllowListEntries.Entry(Some(e.value), None, None)
    case Name => AllowListEntries.Entry(None, Some(e.value), None)
    case UUID => AllowListEntries.Entry(None, None, Some(e.value))
  }

  /** A typed entry admits exactly the players its pattern reading admits. */
  lemma TypedPlayerMatchIsPatternMatch(e: Whitelist.Entry, p: Host.Player)
    ensures Whitelist.MatchesPlayer(e, p) <==> AllowListEntries.MatchesPlayer(AsPattern(e), p)
  {
  }

  /** Typed entries match each other exactly when their pattern readings do,
      so the pattern preorder restricted to typed entries is equality. */
  lemma TypedEntryMatchIsPatternMatch(a: Whitelist.Entry, b: Whitelist.Entry)
    ensures Whitelist.MatchesEntry(a, b) <==> AllowListEntries.MatchesEntry(AsPattern(a), AsPattern(b))
  {
  }

  /** The pattern reading of a typed configuration. */
  function AsPatternConfig(c: Whitelist.Config): (r: AllowListConfigs.Config)
    ensures r.allowList == Lists.Map(c.allowList, AsPattern)
    ensures r.enabled == c.enabled && r.removalReason == c.removalReason
  {
    AllowListConfigs.Config(c.enabled, Lists.Map(c.allowList, AsPattern), c.removalReason)
  }

  /** Both plugins reach the same join verdict on the same configuration.
      (They test the switch and the bypass in opposite order, which does
      not change the verdict.) */
  lemma JoinDecisionsAgree(c: Whitelist.Config, joined: Option<Host.Player>,
                           hasPermission: Host.Permission -> bool)
    ensures Whitelist.OnJoin(c, joined, hasPermission) ==
            Allowlist.OnJoin(AsPatternConfig(c), joined, hasPermission)
  {
  }

  /** Removing a typed entry from a typed list leaves, and counts, what
      removing its pattern reading from the pattern list does. */
  lemma RemovalsAgree(c: Whitelist.Config, key: Whitelist.Entry)
    ensures var typed := Whitelist.RemoveMatching(c, key);
      var pattern := AllowListConfigs.RemoveAllMatches(AsPatternConfig(c), AsPattern(key));
      AsPatternConfig(typed.config) == pattern.config && typed.removed == pattern.removed
  {
    forall i | 0 <= i < |c.allowList|
      ensures Whitelist.Matching(key)(c.allowList[i]) ==
              AllowListConfigs.Matching(AsPattern(key))(AsPattern(c.allowList[i]))
    {
      TypedEntryMatchIsPatternMatch(c.allowList[i], key);
    }
    Lists.KeepMap(c.allowList, AsPattern, Whitelist.Matching(key), AllowListConfigs.Matching(AsPattern(key)));
  }
}

=== FILE: whitelist_plugin.dfy ===
/** The BetterWhitelist plugin: typed entries (one attribute, one value),
    its own command validation, join rule and configuration loading. */
module Whitelist {
  import opened Wrappers
  import opened Storage
  import Host
  import Lists

  /** Type tokens accepted by `allowlist <action> <type> <value>`. */
  const FilterTypes: set<string> := {"name", "ip", "uuid"}

  /** Actions accepted in the three-token form. */
  const Actions: set<string> := {"add", "remove"}

  /** The message shown to a disconnected player unless the file says otherwise. */
  const DefaultRemovalReason := "You are not on the allowlist."

  /** AllowListEntryType: which player attribute an entry tests. */
  datatype EntryType = IP | Name | UUID

  /** AllowListEntry: the attribute kind (`type` in the file) and its value. */
  datatype Entry = Entry(kind: EntryType, value: string)

  /** Matches(TSPlayer): the one attribute named by the kind equals the value. */
  predicate MatchesPlayer(e: Entry, p: Host.Player) {
    match e.kind
    case IP => p.ip == Some(e.value)
    case Name => p.name == Some(e.value)
    case UUID => p.uuid == Some(e.value)
  }

  /** Matches(AllowListEntry): same kind and same value. */
  predicate MatchesEntry(e: Entry, other: Entry) {
    e.kind == other.kind && e.value == other.value
  }

  /** The host attribute an entry kind selects. */
  function FieldOf(k: EntryType): Host.Field {
    match k
    case IP => Host.IpField
    case Name => Host.NameField
    case UUID => Host.UuidField
  }

  /** A typed entry admits a player exactly when the player has the
      attribute the entry names, with that value; the other two attributes
      play no part. */
  lemma MatchesPlayerSelectsOneField(e: Entry, p: Host.Player, q: Host.Player)
    ensures MatchesPlayer(e, p) <==> p.Get(FieldOf(e.kind)) == Some(e.value)
    ensures p.Get(FieldOf(e.kind)) == q.Get(FieldOf(e.kind)) ==> (MatchesPlayer(e, p) <==> MatchesPlayer(e, q))
  {
  }

  /** Entry matching is plain equality of entries, hence an equivalence:
      reflexive, symmetric and transitive. */
  lemma MatchesEntryIsEquality(a: Entry, b: Entry, c: Entry)
    ensures MatchesEntry(a, b) <==> a == b
    ensures MatchesEntry(a, a)
    ensures MatchesEntry(a, b) ==> MatchesEntry(b, a)
    ensures MatchesEntry(a, b) && MatchesEntry(b, c) ==> MatchesEntry(a, c)
  {
  }

  /** AllowListConfig of this variant. */
  datatype Config = Config(enabled: bool, allowList: seq<Entry>, removalReason: string)

  /** `new AllowListConfig()`: disabled, no entries, the default message. */
  const Default := Config(false, [], DefaultRemovalReason)

  /** The kind ManageEntry picks for a type token; `Name` is the initial
      value of its local variable, kept for any other token. */
  function ParseType(t: string): (k: EntryType)
    ensures t == "ip" <==> k == IP
    ensures t == "uuid" <==> k == UUID
    ensures t in FilterTypes ==> (t == "name" <==> k == Name)
    ensures k == Name <==> t != "ip" && t != "uuid"
  {
    if t == "ip" then IP
    else if t == "uuid" then UUID
    else Name
  }

  /** The predicate ManageEntry hands to List.RemoveAll. */
  function Matching(key: Entry): Entry -> bool {
    v => MatchesEntry(v, key)
  }

  /** The configuration after a removal, and how many entries went. */
  datatype Removal = Removal(config: Config, removed: nat)

  /** `allowList.RemoveAll(val => val.Matches(entry))`: every copy of `key`
      goes, everything else stays in order. */
  function RemoveMatching(c: Config, key: Entry): (r: Removal)
    ensures r.removed == |c.allowList| - |r.config.allowList|
    ensures r.removed == 0 <==> r.config == c
    ensures r.removed == 0 <==> key !in c.allowList
    ensures key !in r.config.allowList
    ensures forall i | 0 <= i < |c.allowList| :: c.allowList[i] != key ==> c.allowList[i] in r.config.allowList
    ensures forall i | 0 <= i < |r.config.allowList| :: r.config.allowList[i] in c.allowList
    ensures r.config.enabled == c.enabled && r.config.removalReason == c.removalReason
    ensures forall v :: multiset(r.config.allowList)[v] == if v == key then 0 else multiset(c.allowList)[v]
  {
    var kept := Lists.Keep(c.allowList, Matching(key));
    assert forall v :: multiset(kept)[v] == if v == key then 0 else multiset(c.allowList)[v] by {
      forall v ensures multiset(kept)[v] == if v == key then 0 else multiset(c.allowList)[v] {
        Lists.KeepMultiplicity(c.allowList, Matching(key), v);
      }
    }
    assert forall i | 0 <= i < |kept| :: kept[i] != key;
    Lists.CountZeroIffNone(c.allowList, Matching(key));
    assert key in c.allowList ==> Lists.Any(c.allowList, Matching(key));
    Removal(c.(allowList := kept), |c.allowList| - |kept|)
  }

  /** The plugin's state: the configuration in memory and the file. */
  datatype Plugin = Plugin(config: Config, disk: FileState<Config>)

  /** What the command sends back; `reload` and the ignored one-token
      commands send nothing. */
  datatype Reply =
    | NoReply
    | Entries(text: string)
    | SyntaxError
    | InvalidAction(action: string)
    | InvalidType(kind: string)
    | Added
    | NothingRemoved
    | Removed(count: nat)
    | UnknownAction
  {
    /** Sent with SendErrorMessage. */
    predicate IsError() {
      SyntaxError? || InvalidAction? || InvalidType? || NothingRemoved? || UnknownAction?
    }
  }

  /** The result of one command: the next state, the reply, and whether
      WriteConfig() ran. */
  datatype Outcome = Outcome(plugin: Plugin, reply: Reply, wrote: bool)

  /** What LoadConfig() leaves in `_config`, and what it returns. */
  datatype Loaded = Loaded(config: Config, found: bool)

  /** LoadConfig(): every path but a good file resets to defaults; it
      returns false for a missing file and for one that fails to
      deserialize, true for a `null` document and for a good file. The
      configuration it leaves never depends on the one before. */
  function LoadConfig(file: FileState<Config>): (r: Loaded)
    ensures r.found <==> file.Holds? || file.NullDocument?
    ensures !file.Holds? ==>
      !r.config.enabled && r.config.allowList == [] && r.config.removalReason == DefaultRemovalReason
    ensures file.Holds? ==> r.config == file.content
  {
    match file
    case Absent => Loaded(Default, false)
    case Unparsable => Loaded(Default, false)
    case NullDocument => Loaded(Default, true)
    case Holds(c) => Loaded(c, true)
  }

  /** WriteConfig(): the in-memory configuration is unchanged, and a later
      LoadConfig() reads back exactly what was written. */
  function WriteConfig(p: Plugin): (r: Plugin)
    ensures r.config == p.config
    ensures LoadConfig(r.disk) == Loaded(p.config, true)
  {
    p.(disk := Holds(p.config))
  }

  /** Initialize(): load, and write when LoadConfig() returned false. A file
      that fails to deserialize is therefore replaced by the defaults. */
  function Initialize(file: FileState<Config>): (p: Plugin)
    ensures file.Holds? ==> p == Plugin(file.content, file)
    ensures file.NullDocument? ==> p == Plugin(Default, file)
    ensures file.Absent? || file.Unparsable? ==> p == Plugin(Default, Holds(Default))
  {
    var loaded := LoadConfig(file);
    var p := Plugin(loaded.config, file);
    if loaded.found then p else WriteConfig(p)
  }

  /** LoadConfig as written contradicts the comment above it, which
      promises true for a file that exists even if it fails to deserialize:
      for such a file it returns false, so startup replaces the file with the
      defaults. */
  lemma StartupOverwritesMalformedFile()
    ensures !LoadConfig(Unparsable).found
    ensures Initialize(Unparsable).disk == Holds(Default)
  {
  }

  /** LoadConfig as its comment describes it: false only for a missing file.
      It leaves the same configuration as the code does. */
  function LoadConfigDocumented(file: FileState<Config>): (r: Loaded)
    ensures r.found <==> !file.Absent?
    ensures r.config == LoadConfig(file).config
  {
    match file
    case Absent => Loaded(Default, false)
    case Unparsable => Loaded(Default, true)
    case NullDocument => Loaded(Default, true)
    case Holds(c) => Loaded(c, true)
  }

  /** Initialize() over the documented LoadConfig: a file that exists is
      never overwritten at startup, and memory ends up as with the code. */
  function InitializeDocumented(file: FileState<Config>): (p: Plugin)
    ensures !file.Absent? ==> p.disk == file
    ensures file.Absent? ==> p == Plugin(Default, Holds(Default))
    ensures p.config == Initialize(file).config
  {
    var loaded := LoadConfigDocumented(file);
    var p := Plugin(loaded.config, file);
    if loaded.found then p else WriteConfig(p)
  }

  /** How string interpolation prints a kind: the enum member's name. */
  function KindName(k: EntryType): (s: string)
    ensures |s| >= 2
  {
    match k
    case IP => "IP"
    case Name => "Name"
    case UUID => "UUID"
  }

  /** One line of the listing: the kind's member name, a space, the value. */
  function Line(e: Entry): (s: string)
    ensures |s| >= 4 && s[|s| - 1] == '\n'
    ensures |s| >= |e.value| + 4
    ensures s[..|s| - 2 - |e.value|] == match e.kind case IP => "IP" case Name => "Name" case UUID => "UUID"
    ensures s[|s| - 2 - |e.value|] == ' ' && s[|s| - 1 - |e.value|..|s| - 1] == e.value
  {
    KindName(e.kind) + " " + e.value + "\n"
  }

  /** List(): every entry's line, in list order. */
  function List(entries: seq<Entry>): (s: string)
    ensures s == "" <==> entries == []
    ensures entries != [] ==> Line(entries[0]) <= s
    ensures |entries| == 1 ==> s == Line(entries[0])
  {
    if entries == [] then "" else Line(entries[0]) + List(entries[1..])
  }

  /** The listing of a concatenation is the concatenation of the listings;
      with List's one-entry case this fixes the listing of every list. */
  lemma {:induction false} ListAppend(a: seq<Entry>, b: seq<Entry>)
    ensures List(a + b) == List(a) + List(b)
  {
    if a == [] {
      assert a + b == b;
    } else {
      assert (a + b)[0] == a[0];
      assert (a + b)[1..] == a[1..] + b;
      ListAppend(a[1..], b);
    }
  }

  /** True for the newline character. */
  function IsNewline(c: char): bool {
    c == '\n'
  }

  /** When no value holds a newline, the listing has exactly one line per entry. */
  lemma {:induction false} ListHasOneLinePerEntry(entries: seq<Entry>)
    requires forall i | 0 <= i < |entries| :: '\n' !in entries[i].value
    ensures Lists.Count(List(entries), IsNewline) == |entries|
  {
    if entries != [] {
      var e := entries[0];
      var kind := KindName(e.kind);
      assert Line(e) == (kind + " " + e.value) + "\n";
      assert Lists.Count(kind + " " + e.value, IsNewline) == 0 by {
        Lists.CountZeroIffNone(kind + " " + e.value, IsNewline);
      }
      assert Lists.Count("\n", IsNewline) == 1 by {
        assert "\n"[1..] == "";
      }
      Lists.CountAppend(kind + " " + e.value, "\n", IsNewline);
      Lists.CountAppend(Line(e), List(entries[1..]), IsNewline);
      ListHasOneLinePerEntry(entries[1..]);
    }
  }

  /** The command handler. One token: `reload` reloads and `list` lists,
      anything else is ignored. Otherwise exactly three tokens, a known
      action and a known type are required. */
  function CommandHandler(p: Plugin, params: seq<string>): (o: Outcome)
    ensures o.wrote ==> o.plugin.disk == Holds(o.plugin.config)
    ensures !o.wrote ==> o.plugin.disk == p.disk
    ensures o.reply.IsError() ==> o.plugin == p && !o.wrote
    ensures params != ["reload"] ==> o.plugin.config.removalReason == p.config.removalReason
    ensures params != ["reload"] ==> o.plugin.config.enabled == p.config.enabled
  {
    if |params| == 1 then
      if params[0] == "reload" then Outcome(p.(config := LoadConfig(p.disk).config), NoReply, false)
      else if params[0] == "list" then Outcome(p, Entries(List(p.config.allowList)), false)
      else Outcome(p, NoReply, false)
    else if |params| != 3 then Outcome(p, SyntaxError, false)
    else if params[0] !in Actions then Outcome(p, InvalidAction(params[0]), false)
    else if params[1] !in FilterTypes then Outcome(p, InvalidType(params[1]), false)
    else ManageEntry(p, params[0], params[1], params[2])
  }

  /** ManageEntry: `add` appends and writes; `remove` deletes every equal
      entry and writes only when something went. */
  function ManageEntry(p: Plugin, action: string, kind: string, value: string): (o: Outcome)
    ensures o.wrote ==> o.plugin.disk == Holds(o.plugin.config)
    ensures !o.wrote ==> o.plugin == p
    ensures action == "add" ==>
      o.wrote && o.plugin.config.allowList == p.config.allowList + [Entry(ParseType(kind), value)]
    ensures action == "remove" ==>
      (o.wrote <==> Entry(ParseType(kind), value) in p.config.allowList)
    ensures action == "remove" ==> o.plugin.config == RemoveMatching(p.config, Entry(ParseType(kind), value)).config
    ensures o.plugin.config.enabled == p.config.enabled
    ensures o.plugin.config.removalReason == p.config.removalReason
  {
    var entry := Entry(ParseType(kind), value);
    if action == "add" then
      Outcome(WriteConfig(p.(config := p.config.(allowList := p.config.allowList + [entry]))), Added, true)
    else if action == "remove" then
      var r := RemoveMatching(p.config, entry);
      if r.removed == 0 then Outcome(p, NothingRemoved, false)
      else Outcome(WriteConfig(p.(config := r.config)), Removed(r.removed), true)
    else Outcome(p, UnknownAction, false)
  }

  /** The test handed to Enumerable.Any at join time. */
  function Admits(p: Host.Player): Entry -> bool {
    e => MatchesPlayer(e, p)
  }

  /** OnJoin: no player in the slot, or a bypass permission, admits; else
      the player is disconnected when enforcement is on and no entry
      matches. */
  function OnJoin(config: Config, joined: Option<Host.Player>, hasPermission: Host.Permission -> bool): (v: Host.Verdict)
    ensures joined.None? || Host.HasBypass(hasPermission) ==> v == Host.Admit
    ensures !config.enabled ==> v == Host.Admit
    ensures v.Disconnect? ==> v.reason == config.removalReason
    ensures joined.Some? && !Host.HasBypass(hasPermission) ==>
      (v.Disconnect? <==>
        config.enabled && forall i | 0 <= i < |config.allowList| :: !MatchesPlayer(config.allowList[i], joined.value))
  {
    if joined.None? then Host.Admit
    else if Host.HasBypass(hasPermission) then Host.Admit
    else
      var allowed := Lists.Any(config.allowList, Admits(joined.value));
      if config.enabled && !allowed then Host.Disconnect(config.removalReason) else Host.Admit
  }

  /** Parameter counts other than 1 and 3, unknown actions and unknown types
      are rejected without any change. */
  lemma MalformedCommandsRejected(p: Plugin, params: seq<string>)
    requires |params| != 1
    requires |params| != 3 || params[0] !in Actions || params[1] !in FilterTypes
    ensures var o := CommandHandler(p, params); o.plugin == p && !o.wrote && o.reply.IsError()
  {
  }

  /** One-token commands other than `reload` and `list` are ignored. */
  lemma LoneTokensIgnored(p: Plugin, token: string)
    requires token != "reload" && token != "list"
    ensures CommandHandler(p, [token]) == Outcome(p, NoReply, false)
  {
  }

  /** `list` changes nothing; `reload` never writes and adopts whatever
      LoadConfig() leaves, so an unreadable file wipes the configuration in
      memory. */
  lemma ListAndReload(p: Plugin)
    ensures CommandHandler(p, ["list"]) == Outcome(p, Entries(List(p.config.allowList)), false)
    ensures var o := CommandHandler(p, ["reload"]);
      && !o.wrote && o.plugin.disk == p.disk
      && (!p.disk.Holds? ==> o.plugin.config == Default)
      && (p.disk.Holds? ==> o.plugin.config == p.disk.content)
  {
  }

  /** A valid `add`: the entry with the mapped kind is appended and written. */
  lemma AddCommand(p: Plugin, kind: string, value: string)
    requires kind in FilterTypes
    ensures var o := CommandHandler(p, ["add", kind, value]);
      && o.wrote && o.reply == Added
      && o.plugin.config == p.config.(allowList := p.config.allowList + [Entry(ParseType(kind), value)])
  {
  }

  /** A valid `remove`: when no entry is equal in kind and value it is an
      error and nothing is written; otherwise every equal entry goes. */
  lemma RemoveCommand(p: Plugin, kind: string, value: string)
    requires kind in FilterTypes
    ensures var o := CommandHandler(p, ["remove", kind, value]);
      var key := Entry(ParseType(kind), value);
      && (key !in p.config.allowList ==> o == Outcome(p, NothingRemoved, false))
      && (key in p.config.allowList ==>
            o.wrote && key !in o.plugin.config.allowList &&
            o.reply == Removed(|p.config.allowList| - |o.plugin.config.allowList|))
      && o.plugin.config == RemoveMatching(p.config, key).config
  {
  }
}

=== FILE: wrappers.dfy ===
/** The optional value used for every nullable field of the model. */
module Wrappers {

  /** A C# nullable reference: `None` stands for `null`. */
  datatype Option<+T> = None | Some(value: T) {

    /** The wrapped value, or `default` when there is none. */
    function GetOr(default: T): T {
      match this
      case Some(v) => v
      case None => default
    }
  }
}
